=== FILE: README.md ===
# Scheduling demo: client store model

A Dafny model of the client-side state container of a small appointment
scheduling app (patients book veterinary appointments with doctors). The
model covers the parts of the app that are pure state transitions:

- the `auth` slice (`AuthSlice`): session, registry of signed-up users,
  doctors' time slots, and all of its case reducers, plus a dispatcher
  `Reduce` and a trace runner `Run`;
- the `appointments` slice (`AppointmentsSlice`): the appointment list,
  the selected calendar day and the list filters, with all of its case
  reducers and a dispatcher;
- the unread-message count of a chat thread and the message shape a send
  builds (`ChatUtils`);
- the selection logic of the multi-select picker (`MultiSelect`);
- the redirect decision of the app's entry screen (`LandingRoute`).

Shared pieces: `Wrappers.Option` stands for `T | null` and optional
properties; `Seqs` holds `findIndex`, `filter` and replace-first once, with
the order and idempotence facts the reducers reuse; `Text.Lower` is the
lower-casing applied at sign-in, and `Text.BeforeFirst` is the
`split('T')[0]` that gives the initial selected date.

Every reducer is a pure function from the old state and the action's
payload to the new state. The clock (`new Date().toISOString()`,
`Date.now()`) is a parameter.

Registration compares e-mail addresses exactly, not ignoring case.
`AuthSlice.CaseVariantEmailsBothRegister` shows that `d@x.com` and `D@X.com`
both get registered. Sign-in does lower-case both sides, and it returns the
first user that matches.

The plain field setters have no row of their own. They are
`AuthSlice.SetLoading`, `SetError`, `ClearError`, `SetAvailableSlots` and
`SetDoctorSlots` (store/slices/authSlice.ts:76-83, 214-216, 248-253), and
`AppointmentsSlice.SetLoading`, `SetError` and `SetSelectedDate`
(store/slices/appointmentsSlice.ts:55-63). Each assigns one field. They are
covered by the `Reduce` rows of their slices, which state what those
actions keep.

## Model

| member | source | states |
|---|---|---|
| `AuthSlice.LoginSuccess` | store/slices/authSlice.ts:96-100 | the payload user and token form a signed-in session with no pending request or error; registry and slots untouched |
| `AuthSlice.RegisterUser` | store/slices/authSlice.ts:158-167 | the payload is appended iff no registered user has exactly its e-mail; otherwise the state is unchanged |
| `AuthSlice.SignupSuccess` | store/slices/authSlice.ts:129-148 | appends the user iff its exact e-mail is new, and signs it in with the given token in both cases; slots untouched |
| `AuthSlice.AuthenticateUser` | store/slices/authSlice.ts:172-188 | succeeds (error cleared) iff some registered user matches e-mail up to case and password exactly; then the session is the first match with token `token-<id>`; on failure only the error message and loading flag change; registry and slots never change |
| `AuthSlice.Logout` | store/slices/authSlice.ts:196-202 | session, token and flags cleared, available slots emptied; registry and doctors' slots kept |
| `AuthSlice.UpdateUser` | store/slices/authSlice.ts:209-213 | only the session user changes: every property the patch carries is overwritten, the rest kept; no session means no change; the registry is untouched |
| `AuthSlice.AddTimeSlot` | store/slices/authSlice.ts:225-233 | appends the slot iff the session user is a doctor; otherwise nothing changes |
| `AuthSlice.UpdateTimeSlot` | store/slices/authSlice.ts:235-242 | the first slot with the payload's id is replaced; length and all other slots kept; no-op when the id is absent |
| `AuthSlice.DeleteTimeSlot` | store/slices/authSlice.ts:243-247 | no slot with the id remains, and every slot with another id stays |
| `AuthSlice.ResetAllState` | store/slices/authSlice.ts:254-264 | the initial state: signed out, registry and all slot lists empty |
| `AuthSlice.Reduce` | store/slices/authSlice.ts:72-265 | every action keeps registered e-mails unique if they were; only a reset removes users; at most one user is added per action; session actions (setters, sign-up, sign-in, logout, profile edits) keep the doctors' slots |
| `AuthSlice.RegisterPreservesUniqueEmails` | store/slices/authSlice.ts:131-166 | registration and sign-up keep e-mails pairwise distinct, and the payload's e-mail is registered afterwards |
| `AuthSlice.RunPreservesUniqueEmails` | store/slices/authSlice.ts:109-167 | over any sequence of dispatched actions, registered e-mails stay pairwise distinct |
| `AuthSlice.RunOnlyGrowsRegistry` | store/slices/authSlice.ts:109-167 | without a reset, earlier users keep their places and the registry grows by at most one per action |
| `AuthSlice.SessionActionsKeepDoctorSlots` | store/slices/authSlice.ts:196-202 | any run of session actions, logouts included, leaves the doctors' slots exactly as they were |
| `AuthSlice.AuthenticateSignsInFirstMatch` | store/slices/authSlice.ts:173-184 | when some user matches, sign-in installs the first matching user |
| `AuthSlice.ReauthenticationRestoresSession` | store/slices/authSlice.ts:196-202 | logging out and signing in again restores the same user, token, doctors' slots and registry |
| `AuthSlice.ProfileEditLostOnReauthentication` | store/slices/authSlice.ts:209-213 | a name edited through updateUser is not seen after logout and sign-in, since the registry copy was never updated |
| `AuthSlice.UpdateUserIdempotent` | store/slices/authSlice.ts:209-213 | applying a profile patch twice equals applying it once |
| `AuthSlice.AddThenDeleteTimeSlot` | store/slices/authSlice.ts:225-247 | adding a slot with a fresh id then deleting that id restores the state, whether or not the session is a doctor's (outside one the add is ignored) |
| `AuthSlice.DeleteTimeSlotIdempotent` | store/slices/authSlice.ts:243-247 | deleting twice equals deleting once; deleting an absent id is the identity |
| `AuthSlice.DeleteTimeSlotKeepsOrder` | store/slices/authSlice.ts:243-247 | the remaining slots are exactly those with another id, at strictly increasing original positions |
| `AuthSlice.UpdateTimeSlotIdempotent` | store/slices/authSlice.ts:235-242 | re-sending an update changes nothing, and a lookup by the id then finds the payload |
| `AuthSlice.CaseVariantEmailsBothRegister` | store/slices/authSlice.ts:158-188 | two e-mails differing only in case both register, and sign-in with either spelling returns the first |
| `Text.Lower` | store/slices/authSlice.ts:175 | lower-casing keeps the length, maps each upper-case ASCII letter to its lower-case letter, and keeps every other character |
| `Text.BeforeFirst` | store/slices/appointmentsSlice.ts:40 | `split('T')[0]`: the longest prefix free of the separator, followed by the separator or by the end of the string |
| `Text.BeforeFirstUnique` | store/slices/appointmentsSlice.ts:40 | any prefix free of the separator and followed by it (or by the end) is that result, so the contract determines it |
| `AppointmentsSlice.InitialState` | store/slices/appointmentsSlice.ts:36-49 | empty list, no error, initial filters; the selected date is the load timestamp's prefix before its first `T` |
| `AppointmentsSlice.AddAppointment` | store/slices/appointmentsSlice.ts:64-66 | length grows by one, the old list is the prefix, the payload is last |
| `AppointmentsSlice.UpdateAppointment` | store/slices/appointmentsSlice.ts:67-74 | the first appointment with the payload's id is replaced, all others and the length kept; no-op without a match |
| `AppointmentsSlice.DeleteAppointment` | store/slices/appointmentsSlice.ts:75-79 | no appointment with the id remains, and every one with another id stays |
| `AppointmentsSlice.UpdateAppointmentStatus` | store/slices/appointmentsSlice.ts:80-91 | on the first match sets the status and stamps `updatedAt` with the given time, nothing else; other appointments unchanged; no-op without a match |
| `AppointmentsSlice.SetFilters` | store/slices/appointmentsSlice.ts:92-94 | each filter key the patch supplies is overwritten and every other key kept |
| `AppointmentsSlice.ClearFilters` | store/slices/appointmentsSlice.ts:95-97 | the filters become the initial ones: all statuses, no service type, empty date range |
| `AppointmentsSlice.SetAppointments` | store/slices/appointmentsSlice.ts:98-100 | the list is replaced wholesale; selected date, filters and flags untouched |
| `AppointmentsSlice.ResetAllAppointmentsState` | store/slices/appointmentsSlice.ts:101-104 | the state built at load time: empty list, not loading, no error, initial filters, and the load timestamp's date part |
| `AppointmentsSlice.ResetForgetsHistory` | store/slices/appointmentsSlice.ts:101-104 | after any action a reset yields the initial state, and the result does not depend on the state reset |
| `AppointmentsSlice.Reduce` | store/slices/appointmentsSlice.ts:51-105 | setters and filter actions keep the list; only add and replace-all can lengthen it; replace and status update keep its length; only setSelectedDate and reset move the selected date |
| `AppointmentsSlice.AddThenDelete` | store/slices/appointmentsSlice.ts:64-79 | adding an appointment with a fresh id and deleting that id restores the state |
| `AppointmentsSlice.DeleteAppointmentIdempotent` | store/slices/appointmentsSlice.ts:75-79 | deleting twice equals deleting once; deleting an absent id is the identity |
| `AppointmentsSlice.DeleteAppointmentKeepsOrder` | store/slices/appointmentsSlice.ts:75-79 | the remaining appointments are exactly those with another id, in their original relative order |
| `AppointmentsSlice.UpdateAppointmentIdempotent` | store/slices/appointmentsSlice.ts:67-74 | re-sending the same replacement changes nothing further |
| `AppointmentsSlice.AnyStatusTransition` | store/slices/appointmentsSlice.ts:80-91 | from any status any status can be set on a present id; id and `createdAt` stay |
| `AppointmentsSlice.StatusUpdateKeepsBookings` | store/slices/appointmentsSlice.ts:84-90 | every appointment keeps all fields but status and `updatedAt`, `createdAt` included |
| `AppointmentsSlice.SetFiltersProperties` | store/slices/appointmentsSlice.ts:92-97 | setting the same filters twice equals once; setting every key to its initial value equals clearing |
| `AppointmentsSlice.ClearFiltersIdempotent` | store/slices/appointmentsSlice.ts:95-97 | clearing is idempotent and forgets any earlier setFilters |
| `ChatUtils.SendTestMessage` | utils/chatUtils.ts:14-23 | the built message is unread and carries the given id, thread, sender, role, text and timestamp |
| `ChatUtils.UnreadMessageCount` | utils/chatUtils.ts:31-42 | the count is at most the thread's message count and the list length, and is zero iff no message is on the thread, from someone else and unread |
| `ChatUtils.UnreadCountCountsUnreadPositions` | utils/chatUtils.ts:36-41 | the count equals the number of positions holding a message on the thread, from another sender, unread |
| `ChatUtils.UnreadCountAppend` | utils/chatUtils.ts:36-41 | appending a message adds one iff it is on the thread, from another sender and unread, and nothing otherwise |
| `ChatUtils.SendRaisesUnreadCountOfOthers` | utils/chatUtils.ts:7-41 | appending the message `sendTestMessage` builds raises the count by one for another viewer of the same thread, and leaves it for its sender or another thread |
| `ChatUtils.OwnMessagesNeverCount` | utils/chatUtils.ts:39 | removing all of the viewer's own messages leaves the count unchanged |
| `ChatUtils.AllReadMeansNoneUnread` | utils/chatUtils.ts:40 | once every message of the thread is read the count is zero |
| `MultiSelect.ToggleOption` | components/CustomMultiSelect.tsx:33-45 | a selected value is removed everywhere with all other values kept; an unselected value is appended iff there is room (no limit, zero limit, or below the limit), else no change |
| `MultiSelect.SelectAll` | components/CustomMultiSelect.tsx:47-55 | a prefix of the option values; all of them with no limit or enough room; exactly the limit's count when a positive limit is below the option count; under a negative limit `-n`, all but the last `n` values, or none when `n` exceeds the option count |
| `MultiSelect.ClearAll` | components/CustomMultiSelect.tsx:57-59 | no value is selected |
| `MultiSelect.ToggleRespectsLimit` | components/CustomMultiSelect.tsx:36-42 | under a set nonzero limit a selection within the limit stays within it |
| `MultiSelect.ZeroLimitIsUnlimited` | components/CustomMultiSelect.tsx:39 | a zero limit behaves exactly like no limit, so a new value is always added |
| `MultiSelect.ToggleKeepsDistinct` | components/CustomMultiSelect.tsx:33-45 | a duplicate-free selection stays duplicate-free |
| `MultiSelect.ToggleOffKeepsOrder` | components/CustomMultiSelect.tsx:36-37 | removing a value keeps every other value in its original order |
| `MultiSelect.ToggleTwiceRestores` | components/CustomMultiSelect.tsx:33-45 | toggling an unselected value on and off, with room, returns the original selection |
| `MultiSelect.SelectAllFillsLimit` | components/CustomMultiSelect.tsx:39-55 | under a positive limit below the option count, select-all fills the limit and then no new value can be toggled on |
| `MultiSelect.NegativeLimit` | components/CustomMultiSelect.tsx:39-55 | a negative limit `-n` makes select-all drop the last `n` options (leaving none when `n` exceeds their count) and makes toggling on impossible |
| `MultiSelect.ClearAllThenToggle` | components/CustomMultiSelect.tsx:33-59 | after clearing, toggling a value selects exactly it iff the limit is absent, zero or positive |
| `LandingRoute.Redirect` | app/index.tsx:4-21 | doctor dashboard iff authenticated with a doctor, patient dashboard iff authenticated with a patient, welcome iff not authenticated or no user |
| `LandingRoute.SignedInLandsOnDashboard` | app/index.tsx:11-17 | a signed-in session lands on its user's role dashboard |
| `LandingRoute.LogoutLandsOnWelcome` | app/index.tsx:7-9 | after logout or a full reset the route is welcome |
| `LandingRoute.SignupLandsOnDashboard` | app/index.tsx:11-17 | after sign-up or login the route is the new user's role dashboard |
| `LandingRoute.AuthenticateLandsOnMatchedDashboard` | app/index.tsx:11-17 | after a successful sign-in the route is the first matching user's dashboard; a failed sign-in keeps the route |

## Left out

- Logging: every `console.log` in the reducers is dropped.
- Persistence and reset tooling are not modelled. That covers the persisted snapshot of the two slices, the storage purge helpers, the reset helper component and the reset script. They are storage I/O, and their behaviour lives in foreign libraries.
- The `registeredUsers` re-initialisation in `signupSuccess` is not modelled. It only runs when a persisted snapshot lacks the field, and in the model the registry always exists.
- The chat reducers (`addChatMessage`, `markMessagesAsRead`) and the `ChatMessage` type are not modelled. `store/slices/appointmentsSlice.ts` does not define them, although `utils/chatUtils.ts` and `components/AppointmentChat.tsx` import them from it. The message shape is taken from the literal that `sendTestMessage` builds, and dispatching that message is not modelled.
- The badge component repeats the unread-count filter, and its rendering is left out.
- Date and time widgets, screens, dropdowns and debug views are left out. They are rendering, locale and `Date` handling.
- Clock and id generation are parameters. `now` stands for the ISO timestamp and `id` for `Date.now().toString()`. `loadTime` stands for the time the appointments module was loaded.
- JavaScript numbers are modelled as `int`: durations, prices and `maxSelections`. Fractional and `NaN` values are not modelled.
- `Text.Lower`: models `toLowerCase` on ASCII letters only. Other Unicode case mappings are not modelled.
- `AppointmentsSlice.SetFilters`: a patch key present with the value `undefined` is not modelled; such a key would overwrite the filter with `undefined`. A patch key is either absent or carries a value, and the app's own caller always passes a status.
- `AuthSlice.UpdateUser`: a patch property present with the value `undefined` is not modelled. A patch property is either absent or carries a value.
- User profile extras are modelled as an opaque map from property name to value. These are the avatar, the doctor fields and the pet-owner fields including pets.
- Wall-clock monotonicity of `updatedAt` is not stated, because the timestamp is a parameter.
- Whether a booking flips a slot's `isAvailable` is not modelled. No reducer does it; a booking would be a caller-built `updateTimeSlot`.
- Case-insensitive uniqueness of e-mails is not modelled. The reducers do not enforce it (see `AuthSlice.CaseVariantEmailsBothRegister`).

=== FILE: appointments_slice.dfy ===
/** The `appointments` slice of the client-side store: the list of
    appointments, the day picked in the calendar, and the list filters.
    The clock is a parameter: `now` stands for `new Date().toISOString()`. */
module AppointmentsSlice {
  import opened Wrappers
  import Seqs
  import Text

  datatype Status = Scheduled | Completed | Cancelled

  datatype Appointment = Appointment(
    id: string,
    title: string,
    description: string,
    date: string,
    time: string,
    clientName: string,
    clientPhone: string,
    clientEmail: Option<string>,
    status: Status,
    serviceType: string,
    duration: int,
    price: Option<int>,
    notes: Option<string>,
    createdAt: string,
    updatedAt: string)

  /** The status filter: `'all'` or one particular status. */
  datatype StatusFilter = All | Only(status: Status)

  datatype DateRange = DateRange(start: string, end: string)

  datatype Filters = Filters(status: StatusFilter, serviceType: string, dateRange: DateRange)

  /** A `Partial` of the filters: `None` marks a key absent from the patch. */
  datatype FiltersPatch = FiltersPatch(
    status: Option<StatusFilter>,
    serviceType: Option<string>,
    dateRange: Option<DateRange>)

  datatype AppointmentsState = AppointmentsState(
    appointments: seq<Appointment>,
    loading: bool,
    error: Option<string>,
    selectedDate: string,
    filters: Filters)

  const InitialFilters := Filters(All, "", DateRange("", ""))

  /** The initial state, built once when the module loads at ISO time
      `loadTime`: the selected date is that timestamp's date part. */
  function InitialState(loadTime: string): (r: AppointmentsState)
    ensures r.appointments == [] && !r.loading && r.error == None
    ensures r.filters == InitialFilters
    ensures r.selectedDate <= loadTime && 'T' !in r.selectedDate
    ensures |r.selectedDate| < |loadTime| ==> loadTime[|r.selectedDate|] == 'T'
  {
    AppointmentsState([], false, None, Text.BeforeFirst(loadTime, 'T'), InitialFilters)
  }

  function IdIs(id: string): Appointment -> bool {
    (a: Appointment) => a.id == id
  }

  function IdIsNot(id: string): Appointment -> bool {
    (a: Appointment) => a.id != id
  }

  /** Position `k` holds the first appointment with identifier `id`. */
  predicate FirstWithId(apts: seq<Appointment>, id: string, k: int) {
    0 <= k < |apts| && apts[k].id == id && forall j :: 0 <= j < k ==> apts[j].id != id
  }

  predicate HasId(apts: seq<Appointment>, id: string) {
    exists j :: 0 <= j < |apts| && apts[j].id == id
  }

  /** `b` is `a` except, at most, for its status and last-update time. */
  predicate SameBooking(a: Appointment, b: Appointment) {
    a.(status := b.status, updatedAt := b.updatedAt) == b
  }

  // ---------------------------------------------------------------------
  // Case reducers

  function SetLoading(s: AppointmentsState, loading: bool): AppointmentsState {
    s.(loading := loading)
  }

  function SetError(s: AppointmentsState, error: Option<string>): AppointmentsState {
    s.(error := error)
  }

  function SetSelectedDate(s: AppointmentsState, date: string): AppointmentsState {
    s.(selectedDate := date)
  }

  /** `addAppointment`: appends the payload as given. */
  function AddAppointment(s: AppointmentsState, a: Appointment): (r: AppointmentsState)
    ensures r == s.(appointments := r.appointments)
    ensures |r.appointments| == |s.appointments| + 1
    ensures r.appointments[..|s.appointments|] == s.appointments
    ensures r.appointments[|s.appointments|] == a
  {
    s.(appointments := s.appointments + [a])
  }

  /** `updateAppointment`: overwrites the first appointment carrying the
      payload's id; nothing happens when there is none. */
  function UpdateAppointment(s: AppointmentsState, a: Appointment): (r: AppointmentsState)
    ensures r == s.(appointments := r.appointments)
    ensures |r.appointments| == |s.appointments|
    ensures !HasId(s.appointments, a.id) ==> r == s
    ensures forall k :: FirstWithId(s.appointments, a.id, k) ==> r.appointments == s.appointments[k := a]
  {
    s.(appointments := Seqs.ReplaceFirst(s.appointments, IdIs(a.id), a))
  }

  /** `deleteAppointment`: drops every appointment with the id. */
  function DeleteAppointment(s: AppointmentsState, id: string): (r: AppointmentsState)
    ensures r == s.(appointments := r.appointments)
    ensures forall j :: 0 <= j < |r.appointments| ==>
              r.appointments[j].id != id && r.appointments[j] in s.appointments
    ensures forall j :: 0 <= j < |s.appointments| && s.appointments[j].id != id ==>
              s.appointments[j] in r.appointments
  {
    Seqs.FilterMembers(s.appointments, IdIsNot(id));
    s.(appointments := Seqs.Filter(s.appointments, IdIsNot(id)))
  }

  /** `updateAppointmentStatus`: on the first appointment with the id, sets
      the status (any status, from any status) and stamps `updatedAt` with
      `now`; nothing else changes, and nothing at all without a match. */
  function UpdateAppointmentStatus(s: AppointmentsState, id: string, status: Status, now: string): (r: AppointmentsState)
    ensures r == s.(appointments := r.appointments)
    ensures |r.appointments| == |s.appointments|
    ensures !HasId(s.appointments, id) ==> r == s
    ensures forall k :: FirstWithId(s.appointments, id, k) ==>
              && r.appointments[k].status == status
              && r.appointments[k].updatedAt == now
              && SameBooking(s.appointments[k], r.appointments[k])
              && forall j :: 0 <= j < |s.appointments| && j != k ==> r.appointments[j] == s.appointments[j]
  {
    var k := Seqs.FindIndex(s.appointments, IdIs(id));
    if k == -1 then s
    else s.(appointments := s.appointments[k := s.appointments[k].(status := status, updatedAt := now)])
  }

  /** `setFilters`: `{ ...filters, ...patch }`, a shallow merge, so a
      supplied date range replaces the old one whole. */
  function SetFilters(s: AppointmentsState, p: FiltersPatch): (r: AppointmentsState)
    ensures r == s.(filters := r.filters)
    ensures r.filters.status == (if p.status.Some? then p.status.value else s.filters.status)
    ensures r.filters.serviceType == (if p.serviceType.Some? then p.serviceType.value else s.filters.serviceType)
    ensures r.filters.dateRange == (if p.dateRange.Some? then p.dateRange.value else s.filters.dateRange)
  {
    s.(filters := Filters(p.status.GetOr(s.filters.status),
                          p.serviceType.GetOr(s.filters.serviceType),
                          p.dateRange.GetOr(s.filters.dateRange)))
  }

  /** `clearFilters`: the filters of the initial state. */
  function ClearFilters(s: AppointmentsState): (r: AppointmentsState)
    ensures r == s.(filters := InitialFilters)
    ensures r.filters.status == All && r.filters.serviceType == ""
  {
    s.(filters := InitialFilters)
  }

  /** `setAppointments`: replaces the whole list. */
  function SetAppointments(s: AppointmentsState, apts: seq<Appointment>): (r: AppointmentsState)
    ensures r.appointments == apts
    ensures r.selectedDate == s.selectedDate && r.filters == s.filters
    ensures r.loading == s.loading && r.error == s.error
  {
    s.(appointments := apts)
  }

  /** `resetAllAppointmentsState`: the initial state computed at load time,
      whatever the current one. */
  function ResetAllAppointmentsState(s: AppointmentsState, loadTime: string): (r: AppointmentsState)
    ensures r.appointments == [] && !r.loading && r.error == None
    ensures r.filters == InitialFilters
    ensures r.selectedDate <= loadTime && 'T' !in r.selectedDate
    ensures |r.selectedDate| < |loadTime| ==> loadTime[|r.selectedDate|] == 'T'
  {
    InitialState(loadTime)
  }

  // ---------------------------------------------------------------------
  // Actions: the slice's reducer dispatches on the action it receives

  datatype AppointmentsAction =
    | SetLoadingAction(loading: bool)
    | SetErrorAction(error: Option<string>)
    | SetSelectedDateAction(date: string)
    | AddAppointmentAction(appointment: Appointment)
    | UpdateAppointmentAction(appointment: Appointment)
    | DeleteAppointmentAction(id: string)
    | UpdateAppointmentStatusAction(id: string, status: Status)
    | SetFiltersAction(patch: FiltersPatch)
    | ClearFiltersAction
    | SetAppointmentsAction(appointments: seq<Appointment>)
    | ResetAllAppointmentsStateAction

  /** Actions that leave the appointment list alone. */
  predicate KeepsList(a: AppointmentsAction) {
    a.SetLoadingAction? || a.SetErrorAction? || a.SetSelectedDateAction? || a.SetFiltersAction? || a.ClearFiltersAction?
  }

  /** The slice reducer; `now` is the clock reading a status update stamps,
      and `loadTime` the one the initial state was built from. */
  function Reduce(s: AppointmentsState, a: AppointmentsAction, now: string, loadTime: string): (r: AppointmentsState)
    ensures KeepsList(a) ==> r.appointments == s.appointments
    ensures !(a.AddAppointmentAction? || a.SetAppointmentsAction?) ==> |r.appointments| <= |s.appointments|
    ensures a.UpdateAppointmentStatusAction? || a.UpdateAppointmentAction? ==> |r.appointments| == |s.appointments|
    ensures !a.SetSelectedDateAction? && !a.ResetAllAppointmentsStateAction? ==> r.selectedDate == s.selectedDate
  {
    match a
    case SetLoadingAction(loading) => SetLoading(s, loading)
    case SetErrorAction(error) => SetError(s, error)
    case SetSelectedDateAction(date) => SetSelectedDate(s, date)
    case AddAppointmentAction(apt) => AddAppointment(s, apt)
    case UpdateAppointmentAction(apt) => UpdateAppointment(s, apt)
    case DeleteAppointmentAction(id) => DeleteAppointment(s, id)
    case UpdateAppointmentStatusAction(id, status) => UpdateAppointmentStatus(s, id, status, now)
    case SetFiltersAction(p) => SetFilters(s, p)
    case ClearFiltersAction => ClearFilters(s)
    case SetAppointmentsAction(apts) => SetAppointments(s, apts)
    case ResetAllAppointmentsStateAction => ResetAllAppointmentsState(s, loadTime)
  }

  // ---------------------------------------------------------------------
  // Properties

  /** Adding and then deleting an appointment with a fresh id restores the
      list. */
  lemma {:induction false} AddThenDelete(s: AppointmentsState, a: Appointment)
    requires !HasId(s.appointments, a.id)
    ensures DeleteAppointment(AddAppointment(s, a), a.id) == s
  {
    var p := IdIsNot(a.id);
    Seqs.FilterAppend(s.appointments, [a], p);
    Seqs.FilterKeepsAll(s.appointments, p);
    Seqs.FilterSingleton(a, p);
  }

  /** Deleting twice is deleting once; deleting an absent id changes
      nothing. */
  lemma DeleteAppointmentIdempotent(s: AppointmentsState, id: string)
    ensures DeleteAppointment(DeleteAppointment(s, id), id) == DeleteAppointment(s, id)
    ensures !HasId(s.appointments, id) ==> DeleteAppointment(s, id) == s
  {
    Seqs.FilterIdempotent(s.appointments, IdIsNot(id));
    if !HasId(s.appointments, id) {
      Seqs.FilterKeepsAll(s.appointments, IdIsNot(id));
    }
  }

  /** The appointments that survive a delete keep their relative order. */
  lemma DeleteAppointmentKeepsOrder(s: AppointmentsState, id: string) returns (idx: seq<nat>)
    ensures var kept := DeleteAppointment(s, id).appointments;
            && |idx| == |kept|
            && (forall i :: 0 <= i < |idx| ==> idx[i] < |s.appointments| && kept[i] == s.appointments[idx[i]])
            && (forall i, j :: 0 <= i < j < |idx| ==> idx[i] < idx[j])
            && (forall k :: 0 <= k < |s.appointments| ==> (s.appointments[k].id != id <==> k in idx))
  {
    idx := Seqs.FilterPositions(s.appointments, IdIsNot(id));
  }

  /** Re-sending the same update changes nothing further. */
  lemma UpdateAppointmentIdempotent(s: AppointmentsState, a: Appointment)
    ensures UpdateAppointment(UpdateAppointment(s, a), a) == UpdateAppointment(s, a)
  {
    Seqs.ReplaceFirstIdempotent(s.appointments, IdIs(a.id), a);
  }

  /** The status of an appointment is unguarded: from whatever status it
      is in, any status can be set, and its creation time never changes. */
  lemma AnyStatusTransition(s: AppointmentsState, id: string, status: Status, now: string)
    requires HasId(s.appointments, id)
    ensures var r := UpdateAppointmentStatus(s, id, status, now);
            var k := Seqs.FindIndex(s.appointments, IdIs(id));
            && 0 <= k
            && r.appointments[k].status == status
            && r.appointments[k].createdAt == s.appointments[k].createdAt
            && r.appointments[k].id == id
  {
    var k := Seqs.FindIndex(s.appointments, IdIs(id));
    assert FirstWithId(s.appointments, id, k);
  }

  /** A status update leaves every appointment's booking data, creation time
      included, as it was; only status and update time can move. */
  lemma StatusUpdateKeepsBookings(s: AppointmentsState, id: string, status: Status, now: string)
    ensures var r := UpdateAppointmentStatus(s, id, status, now);
            forall j :: 0 <= j < |s.appointments| ==>
              SameBooking(s.appointments[j], r.appointments[j])
              && r.appointments[j].createdAt == s.appointments[j].createdAt
  {
    var r := UpdateAppointmentStatus(s, id, status, now);
    if HasId(s.appointments, id) {
      var k := Seqs.FindIndex(s.appointments, IdIs(id));
      assert FirstWithId(s.appointments, id, k);
    }
  }

  /** Setting the same filters twice is setting them once, and setting every
      key to its initial value is clearing the filters. */
  lemma SetFiltersProperties(s: AppointmentsState, p: FiltersPatch)
    ensures SetFilters(SetFilters(s, p), p) == SetFilters(s, p)
    ensures SetFilters(s, FiltersPatch(Some(All), Some(""), Some(DateRange("", "")))) == ClearFilters(s)
  {
  }

  /** Clearing the filters is idempotent and forgets any earlier setting. */
  lemma ClearFiltersIdempotent(s: AppointmentsState, p: FiltersPatch)
    ensures ClearFilters(ClearFilters(s)) == ClearFilters(s)
    ensures ClearFilters(SetFilters(s, p)) == ClearFilters(s)
  {
  }

  /** Resetting forgets every earlier action: after any dispatched action,
      a reset yields the load-time initial state, and two resets from any
      two states agree. */
  lemma ResetForgetsHistory(s: AppointmentsState, t: AppointmentsState, a: AppointmentsAction, now: string, loadTime: string)
    ensures ResetAllAppointmentsState(Reduce(s, a, now, loadTime), loadTime) == InitialState(loadTime)
    ensures ResetAllAppointmentsState(s, loadTime) == ResetAllAppointmentsState(t, loadTime)
  {
  }
}

=== FILE: auth_slice.dfy ===
/** The `auth` slice of the client-side store: the session (signed-in user,
    token, loading and error flags), the registry of every user who signed
    up, and the doctors' published time slots.  Each case reducer is a pure
    function from the old state (and its action's payload) to the new one. */
module AuthSlice {
  import opened Wrappers
  import Seqs
  import Text

  datatype Role = Doctor | Patient

  /** The optional profile properties of a user (avatar, a doctor's
      specialisations, licence and clinic, a pet owner's birth date, contacts
      and pets), keyed by property name; their values are opaque here. */
  type Extras = map<string, string>

  datatype User = User(
    id: string,
    name: string,
    email: string,
    phone: string,
    password: string,
    role: Role,
    extras: Extras)

  datatype TimeSlot = TimeSlot(
    id: string,
    doctorId: string,
    date: string,
    startTime: string,
    endTime: string,
    isAvailable: bool,
    duration: int,
    isRecurring: Option<bool>,
    recurringDays: Option<seq<string>>)

  datatype AuthState = AuthState(
    user: Option<User>,
    isAuthenticated: bool,
    loading: bool,
    error: Option<string>,
    token: Option<string>,
    availableSlots: seq<TimeSlot>,
    doctorSlots: seq<TimeSlot>,
    registeredUsers: seq<User>)

  const InitialState := AuthState(None, false, false, None, None, [], [], [])

  const InvalidCredentials := "Invalid email or password"

  /** Prefix of the session token handed out at sign-in. */
  const TokenPrefix := "token-"

  // ---------------------------------------------------------------------
  // Vocabulary for the contracts

  /** Some registered user has exactly this e-mail address. */
  predicate EmailRegistered(users: seq<User>, email: string) {
    exists i :: 0 <= i < |users| && users[i].email == email
  }

  /** No two registered users share an e-mail address (compared exactly). */
  predicate UniqueEmails(users: seq<User>) {
    forall i, j :: 0 <= i < j < |users| ==> users[i].email != users[j].email
  }

  /** The sign-in test: e-mails equal up to case, passwords equal exactly. */
  predicate Credentials(u: User, email: string, password: string) {
    Text.Lower(u.email) == Text.Lower(email) && u.password == password
  }

  /** Position `i` holds the first registered user these credentials match. */
  predicate FirstMatch(users: seq<User>, i: int, email: string, password: string) {
    && 0 <= i < |users|
    && Credentials(users[i], email, password)
    && forall j :: 0 <= j < i ==> !Credentials(users[j], email, password)
  }

  /** The session belongs to `u` with `token`, and no request is pending. */
  predicate SignedIn(s: AuthState, u: User, token: string) {
    s.user == Some(u) && s.token == Some(token) && s.isAuthenticated && !s.loading && s.error == None
  }

  /** No session at all, and no request pending or failed. */
  predicate SignedOut(s: AuthState) {
    s.user == None && s.token == None && !s.isAuthenticated && !s.loading && s.error == None
  }

  predicate IsDoctorSession(s: AuthState) {
    s.user.Some? && s.user.value.role == Doctor
  }

  /** Position `k` holds the first slot with identifier `id`. */
  predicate FirstSlotWithId(slots: seq<TimeSlot>, id: string, k: int) {
    0 <= k < |slots| && slots[k].id == id && forall j :: 0 <= j < k ==> slots[j].id != id
  }

  /** Every part of the state other than the session user, token and flags. */
  predicate SameCollections(s: AuthState, t: AuthState) {
    && s.registeredUsers == t.registeredUsers
    && s.doctorSlots == t.doctorSlots
    && s.availableSlots == t.availableSlots
  }

  function EmailIs(email: string): User -> bool {
    (u: User) => u.email == email
  }

  function Matches(email: string, password: string): User -> bool {
    (u: User) => Credentials(u, email, password)
  }

  function SlotIdIs(id: string): TimeSlot -> bool {
    (t: TimeSlot) => t.id == id
  }

  function SlotIdIsNot(id: string): TimeSlot -> bool {
    (t: TimeSlot) => t.id != id
  }

  // ---------------------------------------------------------------------
  // Case reducers

  function SetLoading(s: AuthState, loading: bool): AuthState {
    s.(loading := loading)
  }

  function SetError(s: AuthState, error: Option<string>): AuthState {
    s.(error := error)
  }

  function ClearError(s: AuthState): AuthState {
    s.(error := None)
  }

  function SetAvailableSlots(s: AuthState, slots: seq<TimeSlot>): AuthState {
    s.(availableSlots := slots)
  }

  function SetDoctorSlots(s: AuthState, slots: seq<TimeSlot>): AuthState {
    s.(doctorSlots := slots)
  }

  /** `loginSuccess`: installs a session without consulting the registry. */
  function LoginSuccess(s: AuthState, u: User, token: string): (r: AuthState)
    ensures SignedIn(r, u, token)
    ensures SameCollections(r, s)
  {
    s.(user := Some(u), token := Some(token), isAuthenticated := true, loading := false, error := None)
  }

  /** `registerUser`: appends `u` unless its exact e-mail is already taken. */
  function RegisterUser(s: AuthState, u: User): (r: AuthState)
    ensures EmailRegistered(s.registeredUsers, u.email) ==> r == s
    ensures !EmailRegistered(s.registeredUsers, u.email) ==>
              r == s.(registeredUsers := s.registeredUsers + [u])
  {
    if Seqs.FindIndex(s.registeredUsers, EmailIs(u.email)) == -1 then
      s.(registeredUsers := s.registeredUsers + [u])
    else
      s
  }

  /** `signupSuccess`: registers `u` as `registerUser` does, then signs it
      in whether or not it was appended. */
  function SignupSuccess(s: AuthState, u: User, token: string): (r: AuthState)
    ensures SignedIn(r, u, token)
    ensures r.doctorSlots == s.doctorSlots && r.availableSlots == s.availableSlots
    ensures EmailRegistered(s.registeredUsers, u.email) ==> r.registeredUsers == s.registeredUsers
    ensures !EmailRegistered(s.registeredUsers, u.email) ==>
              r.registeredUsers == s.registeredUsers + [u]
  {
    var registered := RegisterUser(s, u);
    registered.(user := Some(u), token := Some(token), isAuthenticated := true, loading := false, error := None)
  }

  /** `authenticateUser`: signs in the first registered user whose e-mail
      matches up to case and whose password matches exactly; otherwise
      records the generic failure message and leaves the session alone. */
  function AuthenticateUser(s: AuthState, email: string, password: string): (r: AuthState)
    ensures SameCollections(r, s)
    ensures !r.loading
    ensures r.error == None <==>
              exists i :: 0 <= i < |s.registeredUsers| && Credentials(s.registeredUsers[i], email, password)
    ensures forall i :: FirstMatch(s.registeredUsers, i, email, password) ==>
              SignedIn(r, s.registeredUsers[i], TokenPrefix + s.registeredUsers[i].id)
    ensures r.error != None ==> r == s.(error := Some(InvalidCredentials), loading := false)
  {
    var users := s.registeredUsers;
    var i := Seqs.FindIndex(users, Matches(email, password));
    if i == -1 then
      assert forall j :: 0 <= j < |users| ==> !Matches(email, password)(users[j]);
      s.(error := Some(InvalidCredentials), loading := false)
    else
      assert FirstMatch(users, i, email, password);
      assert forall k :: FirstMatch(users, k, email, password) ==> k == i;
      var u := users[i];
      s.(user := Some(u), token := Some(TokenPrefix + u.id), isAuthenticated := true, loading := false, error := None)
  }

  /** `logout`: ends the session and drops the available-slot listing, but
      keeps the registry and the doctors' slots. */
  function Logout(s: AuthState): (r: AuthState)
    ensures SignedOut(r)
    ensures r.registeredUsers == s.registeredUsers && r.doctorSlots == s.doctorSlots
    ensures r.availableSlots == []
  {
    s.(user := None, token := None, isAuthenticated := false, loading := false, error := None, availableSlots := [])
  }

  /** A `Partial<User>`: `None` marks a property absent from the patch. */
  datatype UserPatch = UserPatch(
    id: Option<string>,
    name: Option<string>,
    email: Option<string>,
    phone: Option<string>,
    password: Option<string>,
    role: Option<Role>,
    extras: Extras)

  const EmptyPatch := UserPatch(None, None, None, None, None, None, map[])

  /** `{ ...u, ...p }`: properties present in `p` win, the rest come from `u`. */
  function Merge(u: User, p: UserPatch): User {
    User(p.id.GetOr(u.id), p.name.GetOr(u.name), p.email.GetOr(u.email), p.phone.GetOr(u.phone),
         p.password.GetOr(u.password), p.role.GetOr(u.role), u.extras + p.extras)
  }

  /** `v` is `u` with every property `p` carries overwritten and no other. */
  predicate Patched(u: User, p: UserPatch, v: User) {
    && (if p.id.Some? then v.id == p.id.value else v.id == u.id)
    && (if p.name.Some? then v.name == p.name.value else v.name == u.name)
    && (if p.email.Some? then v.email == p.email.value else v.email == u.email)
    && (if p.phone.Some? then v.phone == p.phone.value else v.phone == u.phone)
    && (if p.password.Some? then v.password == p.password.value else v.password == u.password)
    && (if p.role.Some? then v.role == p.role.value else v.role == u.role)
    && v.extras.Keys == u.extras.Keys + p.extras.Keys
    && (forall k :: k in p.extras ==> v.extras[k] == p.extras[k])
    && (forall k :: k in u.extras && k !in p.extras ==> v.extras[k] == u.extras[k])
  }

  /** `updateUser`: patches the session's copy of the user only; the
      registry entry is left as it was, and without a session nothing
      happens. */
  function UpdateUser(s: AuthState, p: UserPatch): (r: AuthState)
    ensures r == s.(user := r.user)
    ensures s.user == None ==> r == s
    ensures s.user != None ==> r.user != None && Patched(s.user.value, p, r.user.value)
  {
    if s.user.Some? then s.(user := Some(Merge(s.user.value, p))) else s
  }

  /** `addTimeSlot`: only a doctor's session may publish a slot. */
  function AddTimeSlot(s: AuthState, slot: TimeSlot): (r: AuthState)
    ensures IsDoctorSession(s) ==> r == s.(doctorSlots := s.doctorSlots + [slot])
    ensures !IsDoctorSession(s) ==> r == s
  {
    if s.user.Some? && s.user.value.role == Doctor then
      s.(doctorSlots := s.doctorSlots + [slot])
    else
      s
  }

  /** `updateTimeSlot`: overwrites the first slot carrying the payload's id. */
  function UpdateTimeSlot(s: AuthState, slot: TimeSlot): (r: AuthState)
    ensures r == s.(doctorSlots := r.doctorSlots)
    ensures |r.doctorSlots| == |s.doctorSlots|
    ensures (forall j :: 0 <= j < |s.doctorSlots| ==> s.doctorSlots[j].id != slot.id) ==> r == s
    ensures forall k :: FirstSlotWithId(s.doctorSlots, slot.id, k) ==> r.doctorSlots == s.doctorSlots[k := slot]
  {
    s.(doctorSlots := Seqs.ReplaceFirst(s.doctorSlots, SlotIdIs(slot.id), slot))
  }

  /** `deleteTimeSlot`: drops every slot with the id, whatever its state. */
  function DeleteTimeSlot(s: AuthState, id: string): (r: AuthState)
    ensures r == s.(doctorSlots := r.doctorSlots)
    ensures forall j :: 0 <= j < |r.doctorSlots| ==> r.doctorSlots[j].id != id && r.doctorSlots[j] in s.doctorSlots
    ensures forall j :: 0 <= j < |s.doctorSlots| && s.doctorSlots[j].id != id ==> s.doctorSlots[j] in r.doctorSlots
  {
    Seqs.FilterMembers(s.doctorSlots, SlotIdIsNot(id));
    s.(doctorSlots := Seqs.Filter(s.doctorSlots, SlotIdIsNot(id)))
  }

  /** `resetAllState`: back to the module's initial state, registry and
      slots included. */
  function ResetAllState(s: AuthState): (r: AuthState)
    ensures SignedOut(r)
    ensures r.registeredUsers == [] && r.doctorSlots == [] && r.availableSlots == []
  {
    InitialState
  }

  // ---------------------------------------------------------------------
  // Actions: the slice's reducer dispatches on the action it receives

  datatype AuthAction =
    | SetLoadingAction(loading: bool)
    | SetErrorAction(error: Option<string>)
    | LoginSuccessAction(user: User, token: string)
    | SignupSuccessAction(user: User, token: string)
    | RegisterUserAction(newUser: User)
    | AuthenticateUserAction(email: string, password: string)
    | LogoutAction
    | UpdateUserAction(patch: UserPatch)
    | ClearErrorAction
    | AddTimeSlotAction(slot: TimeSlot)
    | UpdateTimeSlotAction(slot: TimeSlot)
    | DeleteTimeSlotAction(slotId: string)
    | SetAvailableSlotsAction(slots: seq<TimeSlot>)
    | SetDoctorSlotsAction(slots: seq<TimeSlot>)
    | ResetAllStateAction

  /** Actions that touch only the session and the registry. */
  predicate IsSessionAction(a: AuthAction) {
    !(a.AddTimeSlotAction? || a.UpdateTimeSlotAction? || a.DeleteTimeSlotAction? || a.SetDoctorSlotsAction? || a.ResetAllStateAction?)
  }

  /** The slice reducer. */
  function Reduce(s: AuthState, a: AuthAction): (r: AuthState)
    ensures UniqueEmails(s.registeredUsers) ==> UniqueEmails(r.registeredUsers)
    ensures !a.ResetAllStateAction? ==> s.registeredUsers <= r.registeredUsers
    ensures |r.registeredUsers| <= |s.registeredUsers| + 1
    ensures IsSessionAction(a) ==> r.doctorSlots == s.doctorSlots
  {
    match a
    case SetLoadingAction(loading) => SetLoading(s, loading)
    case SetErrorAction(error) => SetError(s, error)
    case LoginSuccessAction(u, token) => LoginSuccess(s, u, token)
    case SignupSuccessAction(u, token) =>
      RegisterPreservesUniqueEmails(s, u, token);
      SignupSuccess(s, u, token)
    case RegisterUserAction(u) =>
      RegisterPreservesUniqueEmails(s, u, "");
      RegisterUser(s, u)
    case AuthenticateUserAction(email, password) => AuthenticateUser(s, email, password)
    case LogoutAction => Logout(s)
    case UpdateUserAction(p) => UpdateUser(s, p)
    case ClearErrorAction => ClearError(s)
    case AddTimeSlotAction(slot) => AddTimeSlot(s, slot)
    case UpdateTimeSlotAction(slot) => UpdateTimeSlot(s, slot)
    case DeleteTimeSlotAction(id) => DeleteTimeSlot(s, id)
    case SetAvailableSlotsAction(slots) => SetAvailableSlots(s, slots)
    case SetDoctorSlotsAction(slots) => SetDoctorSlots(s, slots)
    case ResetAllStateAction => ResetAllState(s)
  }

  /** Dispatches the actions one after another. */
  function Run(s: AuthState, actions: seq<AuthAction>): AuthState
    decreases |actions|
  {
    if |actions| == 0 then s else Run(Reduce(s, actions[0]), actions[1..])
  }

  // ---------------------------------------------------------------------
  // Properties

  /** Registration keeps e-mails unique and always leaves the payload's
      e-mail registered. */
  lemma RegisterPreservesUniqueEmails(s: AuthState, u: User, token: string)
    ensures UniqueEmails(s.registeredUsers) ==> UniqueEmails(RegisterUser(s, u).registeredUsers)
    ensures UniqueEmails(s.registeredUsers) ==> UniqueEmails(SignupSuccess(s, u, token).registeredUsers)
    ensures EmailRegistered(RegisterUser(s, u).registeredUsers, u.email)
  {
    var users := s.registeredUsers;
    if !EmailRegistered(users, u.email) {
      assert (users + [u])[|users|] == u;
    }
    if !EmailRegistered(users, u.email) && UniqueEmails(users) {
      var r := users + [u];
      assert r[|users|] == u;
      forall i, j | 0 <= i < j < |r|
        ensures r[i].email != r[j].email
      {
        if j == |users| {
          assert r[i] == users[i];
        }
      }
    }
  }

  /** Whatever actions are dispatched, registered e-mails stay unique. */
  lemma {:induction false} RunPreservesUniqueEmails(s: AuthState, actions: seq<AuthAction>)
    requires UniqueEmails(s.registeredUsers)
    ensures UniqueEmails(Run(s, actions).registeredUsers)
    decreases |actions|
  {
    if |actions| != 0 {
      RunPreservesUniqueEmails(Reduce(s, actions[0]), actions[1..]);
    }
  }

  /** Without a reset, the registry only grows: earlier users keep their
      places, and each action adds at most one user. */
  lemma {:induction false} RunOnlyGrowsRegistry(s: AuthState, actions: seq<AuthAction>)
    requires forall i :: 0 <= i < |actions| ==> !actions[i].ResetAllStateAction?
    ensures s.registeredUsers <= Run(s, actions).registeredUsers
    ensures |Run(s, actions).registeredUsers| <= |s.registeredUsers| + |actions|
    decreases |actions|
  {
    if |actions| != 0 {
      var next := Reduce(s, actions[0]);
      RunOnlyGrowsRegistry(next, actions[1..]);
    }
  }

  /** Session activity (sign-ups, sign-ins, profile edits, logouts) never
      touches the doctors' published slots. */
  lemma {:induction false} SessionActionsKeepDoctorSlots(s: AuthState, actions: seq<AuthAction>)
    requires forall i :: 0 <= i < |actions| ==> IsSessionAction(actions[i])
    ensures Run(s, actions).doctorSlots == s.doctorSlots
    decreases |actions|
  {
    if |actions| != 0 {
      SessionActionsKeepDoctorSlots(Reduce(s, actions[0]), actions[1..]);
    }
  }

  /** Sign-in succeeds exactly when some registered user matches, and then
      the session is the first such user's. */
  lemma AuthenticateSignsInFirstMatch(s: AuthState, email: string, password: string)
    requires exists i :: 0 <= i < |s.registeredUsers| && Credentials(s.registeredUsers[i], email, password)
    ensures exists i :: FirstMatch(s.registeredUsers, i, email, password)
                     && SignedIn(AuthenticateUser(s, email, password), s.registeredUsers[i],
                                 TokenPrefix + s.registeredUsers[i].id)
  {
    var i := Seqs.FindIndex(s.registeredUsers, Matches(email, password));
    assert FirstMatch(s.registeredUsers, i, email, password);
  }

  /** Logging out and signing in again with the same credentials restores
      the same session, because the registry and slots survived. */
  lemma ReauthenticationRestoresSession(s: AuthState, email: string, password: string)
    requires AuthenticateUser(s, email, password).error == None
    ensures var signedIn := AuthenticateUser(s, email, password);
            var again := AuthenticateUser(Logout(signedIn), email, password);
            again.user == signedIn.user && again.token == signedIn.token
            && again.doctorSlots == signedIn.doctorSlots && again.registeredUsers == signedIn.registeredUsers
  {
  }

  /** A profile edit is not seen by a later sign-in: `updateUser` changes the
      session copy, and signing in again reads the unchanged registry. */
  lemma ProfileEditLostOnReauthentication(s: AuthState, email: string, password: string, name: string)
    requires AuthenticateUser(s, email, password).error == None
    ensures var signedIn := AuthenticateUser(s, email, password);
            var edited := UpdateUser(signedIn, EmptyPatch.(name := Some(name)));
            var again := AuthenticateUser(Logout(edited), email, password);
            edited.user.value.name == name && again.user == signedIn.user
  {
    var signedIn := AuthenticateUser(s, email, password);
    var edited := UpdateUser(signedIn, EmptyPatch.(name := Some(name)));
    assert edited.registeredUsers == signedIn.registeredUsers == s.registeredUsers;
  }

  /** Applying the same profile patch twice is applying it once. */
  lemma UpdateUserIdempotent(s: AuthState, p: UserPatch)
    ensures UpdateUser(UpdateUser(s, p), p) == UpdateUser(s, p)
  {
    if s.user.Some? {
      var u := s.user.value;
      assert (u.extras + p.extras) + p.extras == u.extras + p.extras;
    }
  }

  /** Publishing a slot with a fresh id and deleting it again restores the
      state exactly, in any session (outside a doctor's the add is ignored). */
  lemma {:induction false} AddThenDeleteTimeSlot(s: AuthState, slot: TimeSlot)
    requires forall j :: 0 <= j < |s.doctorSlots| ==> s.doctorSlots[j].id != slot.id
    ensures DeleteTimeSlot(AddTimeSlot(s, slot), slot.id) == s
  {
    var p := SlotIdIsNot(slot.id);
    Seqs.FilterAppend(s.doctorSlots, [slot], p);
    Seqs.FilterKeepsAll(s.doctorSlots, p);
    Seqs.FilterSingleton(slot, p);
  }

  /** Deleting is idempotent, and deleting an id no slot carries changes
      nothing. */
  lemma DeleteTimeSlotIdempotent(s: AuthState, id: string)
    ensures DeleteTimeSlot(DeleteTimeSlot(s, id), id) == DeleteTimeSlot(s, id)
    ensures (forall j :: 0 <= j < |s.doctorSlots| ==> s.doctorSlots[j].id != id) ==> DeleteTimeSlot(s, id) == s
  {
    Seqs.FilterIdempotent(s.doctorSlots, SlotIdIsNot(id));
    if forall j :: 0 <= j < |s.doctorSlots| ==> s.doctorSlots[j].id != id {
      Seqs.FilterKeepsAll(s.doctorSlots, SlotIdIsNot(id));
    }
  }

  /** The slots that survive a delete keep their relative order. */
  lemma DeleteTimeSlotKeepsOrder(s: AuthState, id: string) returns (idx: seq<nat>)
    ensures var kept := DeleteTimeSlot(s, id).doctorSlots;
            && |idx| == |kept|
            && (forall i :: 0 <= i < |idx| ==> idx[i] < |s.doctorSlots| && kept[i] == s.doctorSlots[idx[i]])
            && (forall i, j :: 0 <= i < j < |idx| ==> idx[i] < idx[j])
            && (forall k :: 0 <= k < |s.doctorSlots| ==> (s.doctorSlots[k].id != id <==> k in idx))
  {
    idx := Seqs.FilterPositions(s.doctorSlots, SlotIdIsNot(id));
  }

  /** Re-sending the same slot update changes nothing further, and the
      updated slot is what a lookup by its id now finds. */
  lemma UpdateTimeSlotIdempotent(s: AuthState, slot: TimeSlot)
    ensures UpdateTimeSlot(UpdateTimeSlot(s, slot), slot) == UpdateTimeSlot(s, slot)
    ensures (exists j :: 0 <= j < |s.doctorSlots| && s.doctorSlots[j].id == slot.id) ==>
              var k := Seqs.FindIndex(UpdateTimeSlot(s, slot).doctorSlots, SlotIdIs(slot.id));
              0 <= k && UpdateTimeSlot(s, slot).doctorSlots[k] == slot
  {
    Seqs.ReplaceFirstIdempotent(s.doctorSlots, SlotIdIs(slot.id), slot);
  }

  /** Registration compares e-mails exactly: two addresses that differ only
      in case are both registered, and signing in with either spelling finds
      the one registered first. */
  lemma CaseVariantEmailsBothRegister()
    ensures var first := User("1", "D", "d@x.com", "", "secret", Doctor, map[]);
            var second := User("2", "D2", "D@X.com", "", "secret", Doctor, map[]);
            var s := Run(InitialState, [AuthAction.RegisterUserAction(first), AuthAction.RegisterUserAction(second)]);
            && s.registeredUsers == [first, second]
            && AuthenticateUser(s, "D@X.com", "secret").user == Some(first)
            && AuthenticateUser(s, "d@x.com", "secret").user == Some(first)
  {
    var first := User("1", "D", "d@x.com", "", "secret", Doctor, map[]);
    var second := User("2", "D2", "D@X.com", "", "secret", Doctor, map[]);
    var actions := [AuthAction.RegisterUserAction(first), AuthAction.RegisterUserAction(second)];
    var s1 := Reduce(InitialState, actions[0]);
    assert s1.registeredUsers == [first];
    assert first.email != second.email by {
      assert first.email[0] != second.email[0];
    }
    var s2 := Reduce(s1, actions[1]);
    assert s2.registeredUsers == [first, second];
    assert actions[1..][0] == actions[1] && actions[1..][1..] == [];
    assert Run(s1, actions[1..]) == Run(s2, []) == s2;
    assert Text.Lower("D@X.com") == "d@x.com" == Text.Lower(first.email) by {
      var lower := Text.Lower("D@X.com");
      assert lower[0] == 'd' && lower[2] == 'x';
    }
    assert FirstMatch(s2.registeredUsers, 0, "D@X.com", "secret");
    assert FirstMatch(s2.registeredUsers, 0, "d@x.com", "secret");
  }
}

=== FILE: chat_utils.dfy ===
/** Chat helpers over appointment message threads: the shape of a freshly
    sent message, and the unread-message count shown on a thread's badge. */
module ChatUtils {
  import Seqs
  import AuthSlice

  datatype ChatMessage = ChatMessage(
    id: string,
    appointmentId: string,
    senderId: string,
    senderName: string,
    senderRole: AuthSlice.Role,
    message: string,
    timestamp: string,
    isRead: bool)

  /** The message `sendTestMessage` builds before dispatching it; its id
      (the millisecond clock as text) and timestamp (ISO time) are
      parameters. */
  function SendTestMessage(id: string, appointmentId: string, senderId: string, senderName: string,
                           senderRole: AuthSlice.Role, message: string, now: string): (m: ChatMessage)
    ensures !m.isRead && m.id == id && m.timestamp == now
    ensures m.appointmentId == appointmentId && m.senderId == senderId
    ensures m.senderName == senderName && m.senderRole == senderRole && m.message == message
  {
    ChatMessage(id, appointmentId, senderId, senderName, senderRole, message, now, false)
  }

  /** `m` is a message on the thread that `viewer` has not read yet and did
      not write. */
  predicate UnreadFor(m: ChatMessage, appointmentId: string, viewer: string) {
    m.appointmentId == appointmentId && m.senderId != viewer && !m.isRead
  }

  function IsUnreadFor(appointmentId: string, viewer: string): ChatMessage -> bool {
    (m: ChatMessage) => UnreadFor(m, appointmentId, viewer)
  }

  function OnThread(appointmentId: string): ChatMessage -> bool {
    (m: ChatMessage) => m.appointmentId == appointmentId
  }

  function NotFrom(sender: string): ChatMessage -> bool {
    (m: ChatMessage) => m.senderId != sender
  }

  /** `getUnreadMessageCount`: how many messages of the thread the viewer
      has yet to read, bounded by the thread's length. */
  function UnreadMessageCount(appointmentId: string, viewer: string, msgs: seq<ChatMessage>): (n: nat)
    ensures n <= |Seqs.Filter(msgs, OnThread(appointmentId))| <= |msgs|
    ensures n == 0 <==> forall j :: 0 <= j < |msgs| ==> !UnreadFor(msgs[j], appointmentId, viewer)
  {
    Seqs.FilterMonotone(msgs, IsUnreadFor(appointmentId, viewer), OnThread(appointmentId));
    var unread := Seqs.Filter(msgs, IsUnreadFor(appointmentId, viewer));
    Seqs.FilterMembers(msgs, IsUnreadFor(appointmentId, viewer));
    assert unread != [] ==> unread[0] in msgs && UnreadFor(unread[0], appointmentId, viewer);
    |unread|
  }

  /** The count is the number of positions holding a message unread by the
      viewer. */
  lemma UnreadCountCountsUnreadPositions(appointmentId: string, viewer: string, msgs: seq<ChatMessage>)
    ensures UnreadMessageCount(appointmentId, viewer, msgs)
            == |set k: nat | k < |msgs| && UnreadFor(msgs[k], appointmentId, viewer)|
  {
    Seqs.FilterCount(msgs, IsUnreadFor(appointmentId, viewer));
    assert Seqs.Positions(msgs, IsUnreadFor(appointmentId, viewer))
        == set k: nat | k < |msgs| && UnreadFor(msgs[k], appointmentId, viewer);
  }

  /** Appending a message raises the count by one exactly when it is unread
      by the viewer, and leaves it otherwise. */
  lemma {:induction false} UnreadCountAppend(appointmentId: string, viewer: string, msgs: seq<ChatMessage>, m: ChatMessage)
    ensures UnreadMessageCount(appointmentId, viewer, msgs + [m])
            == UnreadMessageCount(appointmentId, viewer, msgs) + (if UnreadFor(m, appointmentId, viewer) then 1 else 0)
  {
    var p := IsUnreadFor(appointmentId, viewer);
    Seqs.FilterAppend(msgs, [m], p);
    Seqs.FilterSingleton(m, p);
  }

  /** A message sent on the thread by someone else adds one to the viewer's
      count; one sent by the viewer, or on another thread, adds nothing. */
  lemma SendRaisesUnreadCountOfOthers(msgs: seq<ChatMessage>, viewer: string, id: string, appointmentId: string,
                                      thread: string, senderId: string, senderName: string,
                                      senderRole: AuthSlice.Role, text: string, now: string)
    ensures var m := SendTestMessage(id, appointmentId, senderId, senderName, senderRole, text, now);
            UnreadMessageCount(thread, viewer, msgs + [m])
            == UnreadMessageCount(thread, viewer, msgs) + (if thread == appointmentId && senderId != viewer then 1 else 0)
  {
    UnreadCountAppend(thread, viewer, msgs, SendTestMessage(id, appointmentId, senderId, senderName, senderRole, text, now));
  }

  /** The viewer's own messages never count: removing them all leaves the
      count unchanged. */
  lemma OwnMessagesNeverCount(appointmentId: string, viewer: string, msgs: seq<ChatMessage>)
    ensures UnreadMessageCount(appointmentId, viewer, Seqs.Filter(msgs, NotFrom(viewer)))
            == UnreadMessageCount(appointmentId, viewer, msgs)
  {
    Seqs.FilterOfFilter(msgs, IsUnreadFor(appointmentId, viewer), NotFrom(viewer));
  }

  /** Once every message of the thread is read, nothing is unread. */
  lemma AllReadMeansNoneUnread(appointmentId: string, viewer: string, msgs: seq<ChatMessage>)
    requires forall j :: 0 <= j < |msgs| && msgs[j].appointmentId == appointmentId ==> msgs[j].isRead
    ensures UnreadMessageCount(appointmentId, viewer, msgs) == 0
  {
  }
}

=== FILE: landing_route.dfy ===
/** The app's entry screen redirects on the session: visitors go to the
    welcome screen, signed-in doctors and patients to their dashboards. */
module LandingRoute {
  import opened Wrappers
  import opened AuthSlice

  datatype Route = Welcome | DoctorDashboard | PatientDashboard

  function DashboardFor(role: Role): Route {
    match role
    case Doctor => DoctorDashboard
    case Patient => PatientDashboard
  }

  /** The redirect decision on `isAuthenticated` and `user?.role`. */
  function Redirect(isAuthenticated: bool, role: Option<Role>): (r: Route)
    ensures r == DoctorDashboard <==> isAuthenticated && role == Some(Doctor)
    ensures r == PatientDashboard <==> isAuthenticated && role == Some(Patient)
    ensures r == Welcome <==> !isAuthenticated || role == None
  {
    if !isAuthenticated then Welcome
    else match role
      case Some(Doctor) => DoctorDashboard
      case Some(Patient) => PatientDashboard
      case None => Welcome
  }

  /** The route the entry screen takes for a given auth state. */
  function RouteFor(s: AuthState): Route {
    Redirect(s.isAuthenticated, if s.user.Some? then Some(s.user.value.role) else None)
  }

  /** A signed-in session lands on its own role's dashboard. */
  lemma SignedInLandsOnDashboard(s: AuthState, u: User, token: string)
    requires SignedIn(s, u, token)
    ensures RouteFor(s) == DashboardFor(u.role)
  {
  }

  /** After logout, and after a full reset, the app lands on the welcome
      screen. */
  lemma LogoutLandsOnWelcome(s: AuthState)
    ensures RouteFor(Logout(s)) == Welcome
    ensures RouteFor(ResetAllState(s)) == Welcome
  {
  }

  /** After sign-up or login the app lands on the new user's dashboard. */
  lemma SignupLandsOnDashboard(s: AuthState, u: User, token: string)
    ensures RouteFor(SignupSuccess(s, u, token)) == DashboardFor(u.role)
    ensures RouteFor(LoginSuccess(s, u, token)) == DashboardFor(u.role)
  {
    SignedInLandsOnDashboard(SignupSuccess(s, u, token), u, token);
    SignedInLandsOnDashboard(LoginSuccess(s, u, token), u, token);
  }

  /** A successful sign-in lands on the dashboard of the first matching
      registered user's role; a failed one leaves the route as it was. */
  lemma AuthenticateLandsOnMatchedDashboard(s: AuthState, email: string, password: string, i: int)
    ensures FirstMatch(s.registeredUsers, i, email, password) ==>
              RouteFor(AuthenticateUser(s, email, password)) == DashboardFor(s.registeredUsers[i].role)
    ensures (forall j :: 0 <= j < |s.registeredUsers| ==> !Credentials(s.registeredUsers[j], email, password)) ==>
              RouteFor(AuthenticateUser(s, email, password)) == RouteFor(s)
  {
    if FirstMatch(s.registeredUsers, i, email, password) {
      var u := s.registeredUsers[i];
      SignedInLandsOnDashboard(AuthenticateUser(s, email, password), u, TokenPrefix + u.id);
    }
  }
}

=== FILE: multi_select.dfy ===
/** The selection logic of the multi-select picker: toggling one value,
    selecting all options, and clearing.  `maxSelections` is optional, and
    a missing or zero limit means "no limit" (the component tests
    `!maxSelections`). */
module MultiSelect {
  import opened Wrappers
  import Seqs

  /** An option of the picker: the text shown (`label`) and its value. */
  datatype SelectOption = SelectOption(caption: string, value: string)

  /** `!maxSelections`: no limit is set, or it is zero. */
  predicate Unlimited(maxSelections: Option<int>) {
    maxSelections.None? || maxSelections.value == 0
  }

  /** A value not yet selected may still be added. */
  predicate HasRoom(selected: seq<string>, maxSelections: Option<int>) {
    Unlimited(maxSelections) || |selected| < maxSelections.value
  }

  function IsNot(value: string): string -> bool {
    (v: string) => v != value
  }

  /** `toggleOption`: a selected value is removed (every occurrence of it);
      an unselected one is appended at the end if there is room, and
      otherwise the selection stays as it is. */
  function ToggleOption(selected: seq<string>, value: string, maxSelections: Option<int>): (r: seq<string>)
    ensures value in selected ==> value !in r && |r| < |selected|
    ensures value in selected ==> forall v :: v != value ==> (v in r <==> v in selected)
    ensures value !in selected && HasRoom(selected, maxSelections) ==> r == selected + [value]
    ensures value !in selected && !HasRoom(selected, maxSelections) ==> r == selected
  {
    if value in selected then
      var kept := Seqs.Filter(selected, IsNot(value));
      Seqs.FilterMembers(selected, IsNot(value));
      assert |kept| < |selected| by {
        var k :| 0 <= k < |selected| && selected[k] == value;
        Seqs.FilterDropsFailing(selected, IsNot(value), k);
      }
      kept
    else if !maxSelections.Some? || maxSelections.value == 0 || |selected| < maxSelections.value then
      selected + [value]
    else
      selected
  }

  /** The option values, in order. */
  function Values(options: seq<SelectOption>): (r: seq<string>)
    ensures |r| == |options|
    ensures forall i :: 0 <= i < |r| ==> r[i] == options[i].value
  {
    seq(|options|, i requires 0 <= i < |options| => options[i].value)
  }

  /** Where `slice(0, end)` stops on a sequence of length `len`: a negative
      end counts back from the end, and the result is clamped to the
      sequence. */
  function SliceEnd(len: nat, end: int): (r: nat)
    ensures r <= len
    ensures 0 <= end <= len ==> r == end
    ensures end < 0 && -end <= len ==> r == len + end
    ensures end > len ==> r == len
    ensures end < 0 && -end > len ==> r == 0
  {
    if end < 0 then (if len + end < 0 then 0 else len + end)
    else if end > len then len
    else end
  }

  /** `selectAll`: all option values in order, cut down to the first
      `maxSelections` of them when a limit is set and there are more
      options than that. */
  function SelectAll(options: seq<SelectOption>, maxSelections: Option<int>): (r: seq<string>)
    ensures r <= Values(options)
    ensures Unlimited(maxSelections) || |options| <= maxSelections.value ==> r == Values(options)
    ensures !Unlimited(maxSelections) && 0 < maxSelections.value < |options| ==>
              |r| == maxSelections.value
    ensures !Unlimited(maxSelections) && maxSelections.value < 0 ==>
              |r| == (if |options| + maxSelections.value < 0 then 0 else |options| + maxSelections.value)
  {
    if maxSelections.Some? && maxSelections.value != 0 && |options| > maxSelections.value then
      Values(options[..SliceEnd(|options|, maxSelections.value)])
    else
      Values(options)
  }

  /** `clearAll`: nothing selected. */
  function ClearAll(): (r: seq<string>)
    ensures forall v :: v !in r
  {
    []
  }

  // ---------------------------------------------------------------------
  // Properties

  /** Under a set, positive limit, toggling never takes a selection that
      respects the limit beyond it. */
  lemma ToggleRespectsLimit(selected: seq<string>, value: string, maxSelections: Option<int>)
    requires !Unlimited(maxSelections)
    requires |selected| <= maxSelections.value
    ensures |ToggleOption(selected, value, maxSelections)| <= maxSelections.value
  {
  }

  /** A limit of zero is no limit: toggling behaves as with no limit at
      all, and always adds a value not yet selected. */
  lemma ZeroLimitIsUnlimited(selected: seq<string>, value: string)
    ensures ToggleOption(selected, value, Some(0)) == ToggleOption(selected, value, None)
    ensures value !in selected ==> ToggleOption(selected, value, Some(0)) == selected + [value]
  {
  }

  /** A duplicate-free selection stays duplicate-free. */
  lemma ToggleKeepsDistinct(selected: seq<string>, value: string, maxSelections: Option<int>)
    requires Seqs.Distinct(selected)
    ensures Seqs.Distinct(ToggleOption(selected, value, maxSelections))
  {
    if value in selected {
      Seqs.FilterDistinct(selected, IsNot(value));
    }
  }

  /** Removing a value keeps the other selected values in their order. */
  lemma ToggleOffKeepsOrder(selected: seq<string>, value: string, maxSelections: Option<int>) returns (idx: seq<nat>)
    requires value in selected
    ensures var r := ToggleOption(selected, value, maxSelections);
            && |idx| == |r|
            && (forall i :: 0 <= i < |idx| ==> idx[i] < |selected| && r[i] == selected[idx[i]])
            && (forall i, j :: 0 <= i < j < |idx| ==> idx[i] < idx[j])
            && (forall k :: 0 <= k < |selected| ==> (selected[k] != value <==> k in idx))
  {
    idx := Seqs.FilterPositions(selected, IsNot(value));
  }

  /** Toggling an unselected value on and off again, with room for it,
      gives back the original selection. */
  lemma {:induction false} ToggleTwiceRestores(selected: seq<string>, value: string, maxSelections: Option<int>)
    requires value !in selected
    requires HasRoom(selected, maxSelections)
    ensures ToggleOption(ToggleOption(selected, value, maxSelections), value, maxSelections) == selected
  {
    var p := IsNot(value);
    Seqs.FilterAppend(selected, [value], p);
    Seqs.FilterKeepsAll(selected, p);
    Seqs.FilterSingleton(value, p);
  }

  /** Selecting all under a positive limit stays within the limit, and then
      no further unselected value can be toggled on. */
  lemma SelectAllFillsLimit(options: seq<SelectOption>, maxSelections: Option<int>, value: string)
    requires !Unlimited(maxSelections) && 0 < maxSelections.value < |options|
    ensures |SelectAll(options, maxSelections)| == maxSelections.value
    ensures value !in SelectAll(options, maxSelections) ==>
              ToggleOption(SelectAll(options, maxSelections), value, maxSelections) == SelectAll(options, maxSelections)
  {
  }

  /** A negative limit is a set limit that nothing fits under: select-all
      drops that many options from the end, and toggling adds nothing. */
  lemma NegativeLimit(options: seq<SelectOption>, selected: seq<string>, value: string, n: nat)
    requires 0 < n
    requires value !in selected
    ensures SelectAll(options, Some(-(n as int))) == Values(options)[..if n <= |options| then |options| - n else 0]
    ensures ToggleOption(selected, value, Some(-(n as int))) == selected
  {
  }

  /** From a cleared selection a toggle selects exactly that value, unless a
      negative limit forbids any selection. */
  lemma ClearAllThenToggle(value: string, maxSelections: Option<int>)
    ensures ToggleOption(ClearAll(), value, maxSelections) == [value]
            <==> Unlimited(maxSelections) || maxSelections.value > 0
  {
  }
}

=== FILE: seqs.dfy ===
/** The JavaScript array primitives the reducers are built from
    (`findIndex`, `filter`, assignment at a found index), stated once over
    Dafny sequences together with the facts the reducers' proofs use. */
module Seqs {

  /** No value occurs twice. */
  predicate Distinct<T(==)>(s: seq<T>) {
    forall i, j :: 0 <= i < j < |s| ==> s[i] != s[j]
  }

  /** `Array.prototype.findIndex`: the position of the first element
      satisfying `p`, or -1 when there is none. */
  function FindIndex<T>(s: seq<T>, p: T -> bool): (r: int)
    ensures -1 <= r < |s|
    ensures 0 <= r ==> p(s[r]) && forall j :: 0 <= j < r ==> !p(s[j])
    ensures r == -1 <==> forall j :: 0 <= j < |s| ==> !p(s[j])
  {
    if |s| == 0 then -1
    else if p(s[0]) then 0
    else
      var k := FindIndex(s[1..], p);
      if k == -1 then -1 else k + 1
  }

  /** `s[findIndex(p)] = x` when some element satisfies `p`, and nothing
      otherwise. */
  function ReplaceFirst<T>(s: seq<T>, p: T -> bool, x: T): (r: seq<T>)
    ensures |r| == |s|
    ensures FindIndex(s, p) == -1 ==> r == s
    ensures 0 <= FindIndex(s, p) ==> r[FindIndex(s, p)] == x
    ensures forall j :: 0 <= j < |s| && j != FindIndex(s, p) ==> r[j] == s[j]
  {
    var k := FindIndex(s, p);
    if k == -1 then s else s[k := x]
  }

  /** The first match is still the first match once it has been replaced by
      another matching value, so replacing again changes nothing. */
  lemma ReplaceFirstIdempotent<T>(s: seq<T>, p: T -> bool, x: T)
    requires p(x)
    ensures FindIndex(ReplaceFirst(s, p, x), p) == FindIndex(s, p)
    ensures ReplaceFirst(ReplaceFirst(s, p, x), p, x) == ReplaceFirst(s, p, x)
  {
    var k := FindIndex(s, p);
    var r := ReplaceFirst(s, p, x);
    if k != -1 {
      assert p(r[k]);
      assert forall j :: 0 <= j < k ==> r[j] == s[j];
    }
  }

  /** `[x]` if `x` passes `p`, else nothing. */
  function Keep<T>(x: T, p: T -> bool): seq<T> {
    if p(x) then [x] else []
  }

  /** `Array.prototype.filter`: the elements satisfying `p`, in order
      (defined from the last element backwards). */
  function Filter<T>(s: seq<T>, p: T -> bool): (r: seq<T>)
    ensures |r| <= |s|
  {
    if |s| == 0 then [] else Filter(s[..|s| - 1], p) + Keep(s[|s| - 1], p)
  }

  lemma FilterSingleton<T>(x: T, p: T -> bool)
    ensures Filter([x], p) == Keep(x, p)
  {
    assert [x][..0] == [];
  }

  /** Filtering distributes over concatenation. */
  lemma {:induction false} FilterAppend<T>(a: seq<T>, b: seq<T>, p: T -> bool)
    ensures Filter(a + b, p) == Filter(a, p) + Filter(b, p)
  {
    if |b| == 0 {
      assert a + b == a;
    } else {
      var init, last := b[..|b| - 1], b[|b| - 1];
      var ab := a + b;
      assert ab[..|ab| - 1] == a + init;
      assert ab[|ab| - 1] == last;
      FilterAppend(a, init, p);
      calc {
        Filter(ab, p);
        Filter(a + init, p) + Keep(last, p);
        (Filter(a, p) + Filter(init, p)) + Keep(last, p);
        Filter(a, p) + (Filter(init, p) + Keep(last, p));
      }
    }
  }

  /** The filtered sequence holds exactly the passing elements. */
  lemma {:induction false} FilterMembers<T>(s: seq<T>, p: T -> bool)
    ensures forall i :: 0 <= i < |Filter(s, p)| ==> Filter(s, p)[i] in s && p(Filter(s, p)[i])
    ensures forall j :: 0 <= j < |s| && p(s[j]) ==> s[j] in Filter(s, p)
  {
    if |s| != 0 {
      var init, last := s[..|s| - 1], s[|s| - 1];
      FilterMembers(init, p);
      var r, pre := Filter(s, p), Filter(init, p);
      assert r == pre + Keep(last, p);
      forall i | 0 <= i < |r|
        ensures r[i] in s && p(r[i])
      {
        if i < |pre| {
          assert r[i] == pre[i] && pre[i] in init;
        }
      }
      forall j | 0 <= j < |s| - 1 && p(s[j])
        ensures s[j] in r
      {
        assert s[j] == init[j];
      }
    }
  }

  /** Filtering keeps a sequence whose every element passes. */
  lemma {:induction false} FilterKeepsAll<T>(s: seq<T>, p: T -> bool)
    requires forall j :: 0 <= j < |s| ==> p(s[j])
    ensures Filter(s, p) == s
  {
    if |s| != 0 {
      var init := s[..|s| - 1];
      FilterKeepsAll(init, p);
      assert s == init + [s[|s| - 1]];
    }
  }

  /** Filtering twice by the same predicate is filtering once. */
  lemma FilterIdempotent<T>(s: seq<T>, p: T -> bool)
    ensures Filter(Filter(s, p), p) == Filter(s, p)
  {
    FilterMembers(s, p);
    FilterKeepsAll(Filter(s, p), p);
  }

  /** The filtered sequence is exactly the passing elements of `s`, picked
      out at strictly increasing positions `idx`, and every passing position
      of `s` is picked. */
  lemma {:induction false} FilterPositions<T>(s: seq<T>, p: T -> bool) returns (idx: seq<nat>)
    ensures |idx| == |Filter(s, p)|
    ensures forall i :: 0 <= i < |idx| ==> idx[i] < |s| && Filter(s, p)[i] == s[idx[i]]
    ensures forall i, j :: 0 <= i < j < |idx| ==> idx[i] < idx[j]
    ensures forall k :: 0 <= k < |s| ==> (p(s[k]) <==> k in idx)
  {
    if |s| == 0 {
      return [];
    }
    var n := |s| - 1;
    var init, last := s[..n], s[n];
    var pre := FilterPositions(init, p);
    idx := if p(last) then pre + [n] else pre;
    SnocPicks(s, p, pre, idx);
    SnocOrdered(n, pre, idx);
    SnocComplete(s, p, pre, idx);
  }

  lemma SnocPicks<T>(s: seq<T>, p: T -> bool, pre: seq<nat>, idx: seq<nat>)
    requires |s| != 0
    requires |pre| == |Filter(s[..|s| - 1], p)|
    requires forall i :: 0 <= i < |pre| ==> pre[i] < |s| - 1 && Filter(s[..|s| - 1], p)[i] == s[..|s| - 1][pre[i]]
    requires idx == if p(s[|s| - 1]) then pre + [|s| - 1] else pre
    ensures |idx| == |Filter(s, p)|
    ensures forall i :: 0 <= i < |idx| ==> idx[i] < |s| && Filter(s, p)[i] == s[idx[i]]
  {
    var n := |s| - 1;
    var f, fInit := Filter(s, p), Filter(s[..n], p);
    assert f == fInit + Keep(s[n], p);
    forall i | 0 <= i < |idx|
      ensures idx[i] < |s| && f[i] == s[idx[i]]
    {
      if i < |pre| {
        assert idx[i] == pre[i] && f[i] == fInit[i] == s[..n][pre[i]];
      }
    }
  }

  lemma SnocOrdered(n: nat, pre: seq<nat>, idx: seq<nat>)
    requires forall i :: 0 <= i < |pre| ==> pre[i] < n
    requires forall i, j :: 0 <= i < j < |pre| ==> pre[i] < pre[j]
    requires idx == pre || idx == pre + [n]
    ensures forall i, j :: 0 <= i < j < |idx| ==> idx[i] < idx[j]
  {
  }

  lemma SnocComplete<T>(s: seq<T>, p: T -> bool, pre: seq<nat>, idx: seq<nat>)
    requires |s| != 0
    requires forall i :: 0 <= i < |pre| ==> pre[i] < |s| - 1
    requires forall k :: 0 <= k < |s| - 1 ==> (p(s[..|s| - 1][k]) <==> k in pre)
    requires idx == if p(s[|s| - 1]) then pre + [|s| - 1] else pre
    ensures forall k :: 0 <= k < |s| ==> (p(s[k]) <==> k in idx)
  {
    var n := |s| - 1;
    assert n !in pre;
    forall k | 0 <= k < n
      ensures (p(s[k]) <==> k in idx)
    {
      assert s[k] == s[..n][k];
      assert k in idx <==> k in pre;
    }
  }

  /** Filtering by a predicate implied by another (on the elements of `s`)
      keeps at most as many elements. */
  lemma {:induction false} FilterMonotone<T>(s: seq<T>, p: T -> bool, q: T -> bool)
    requires forall j :: 0 <= j < |s| && p(s[j]) ==> q(s[j])
    ensures |Filter(s, p)| <= |Filter(s, q)|
  {
    if |s| != 0 {
      FilterMonotone(s[..|s| - 1], p, q);
    }
  }

  /** Filtering a duplicate-free sequence gives a duplicate-free sequence. */
  lemma FilterDistinct<T>(s: seq<T>, p: T -> bool)
    requires Distinct(s)
    ensures Distinct(Filter(s, p))
  {
    var r := Filter(s, p);
    var idx := FilterPositions(s, p);
    forall i, j | 0 <= i < j < |r|
      ensures r[i] != r[j]
    {
      assert idx[i] < idx[j];
    }
  }

  /** The passing positions of `s`. */
  function Positions<T>(s: seq<T>, p: T -> bool): set<nat> {
    set k: nat | k < |s| && p(s[k])
  }

  lemma PositionsSnoc<T>(s: seq<T>, p: T -> bool)
    requires |s| != 0
    ensures var n := |s| - 1;
            && n !in Positions(s[..n], p)
            && Positions(s, p) == Positions(s[..n], p) + (if p(s[n]) then {n} else {})
  {
    var n := |s| - 1;
    forall k: nat | k < n
      ensures s[k] == s[..n][k]
    {
    }
  }

  /** The length of a filtered sequence is the number of passing positions. */
  lemma {:induction false} FilterCount<T>(s: seq<T>, p: T -> bool)
    ensures |Filter(s, p)| == |Positions(s, p)|
  {
    if |s| != 0 {
      FilterCount(s[..|s| - 1], p);
      PositionsSnoc(s, p);
    }
  }

  /** Pre-filtering by a weaker predicate does not change the result. */
  lemma {:induction false} FilterOfFilter<T>(s: seq<T>, p: T -> bool, q: T -> bool)
    requires forall j :: 0 <= j < |s| && p(s[j]) ==> q(s[j])
    ensures Filter(Filter(s, q), p) == Filter(s, p)
  {
    if |s| != 0 {
      var init, last := s[..|s| - 1], s[|s| - 1];
      FilterOfFilter(init, p, q);
      FilterAppend(Filter(init, q), Keep(last, q), p);
      if q(last) {
        FilterSingleton(last, p);
      } else {
        assert Filter(Keep(last, q), p) == [];
      }
    }
  }

  /** Filtering out an element that fails `p` shortens the sequence. */
  lemma {:induction false} FilterDropsFailing<T>(s: seq<T>, p: T -> bool, k: nat)
    requires k < |s| && !p(s[k])
    ensures |Filter(s, p)| < |s|
  {
    if k != |s| - 1 {
      FilterDropsFailing(s[..|s| - 1], p, k);
    }
  }
}

=== FILE: text.dfy ===
/** String helpers the reducers depend on: the lower-casing applied to
    e-mail addresses at sign-in, and the `split('T')[0]` that turns an ISO
    timestamp into its date. */
module Text {

  predicate IsUpperAscii(c: char) {
    'A' <= c <= 'Z'
  }

  /** `toLowerCase` on one character, restricted to ASCII letters. */
  function LowerChar(c: char): (r: char)
    ensures !IsUpperAscii(r)
    ensures !IsUpperAscii(c) ==> r == c
    ensures IsUpperAscii(c) ==> r as int - c as int == 'a' as int - 'A' as int
  {
    if IsUpperAscii(c) then (c as int + ('a' as int - 'A' as int)) as char else c
  }

  /** `String.prototype.toLowerCase`, restricted to ASCII letters. */
  function Lower(s: string): (r: string)
    ensures |r| == |s|
    ensures forall i :: 0 <= i < |r| ==> !IsUpperAscii(r[i])
    ensures forall i :: 0 <= i < |s| && !IsUpperAscii(s[i]) ==> r[i] == s[i]
    ensures forall i :: 0 <= i < |s| && IsUpperAscii(s[i]) ==>
              r[i] as int == s[i] as int + ('a' as int - 'A' as int)
  {
    seq(|s|, i requires 0 <= i < |s| => LowerChar(s[i]))
  }

  /** `s.split(sep)[0]`: everything before the first `sep`, or all of `s`. */
  function BeforeFirst(s: string, sep: char): (r: string)
    ensures r <= s
    ensures sep !in r
    ensures |r| < |s| ==> s[|r|] == sep
  {
    if |s| == 0 then ""
    else if s[0] == sep then ""
    else [s[0]] + BeforeFirst(s[1..], sep)
  }

  /** The three facts in `BeforeFirst`'s contract pin its result down: any
      prefix of `s` free of `sep` and followed by `sep` (or by nothing) is
      `BeforeFirst(s, sep)`. */
  lemma BeforeFirstUnique(s: string, sep: char, t: string)
    requires t <= s && sep !in t
    requires |t| < |s| ==> s[|t|] == sep
    ensures t == BeforeFirst(s, sep)
  {
    var r := BeforeFirst(s, sep);
    assert |t| == |r|;
    assert t == s[..|t|] && r == s[..|r|];
  }
}

=== FILE: wrappers.dfy ===
/** Optional values: the model's stand-in for TypeScript's `T | null` and
    for optional (`?:`) properties. */
module Wrappers {

  datatype Option<+T> = None | Some(value: T) {

    /** The wrapped value, or `default` when there is none. */
    function GetOr(default: T): T {
      match this
      case Some(v) => v
      case None => default
    }
  }
}
